=== FILE: README.md ===
# Student service client: error normalisation, response unwrapping, base URL

A Dafny model of the decision logic inside the student-management front
end's API client. Three pure pieces are modelled as total functions over
explicit datatypes and proved against independent statements of what they
promise:

- **Base-URL selection** (`ApiConfig`): the fixed two-row configuration table
  and the choice of row from the host name, which is a parameter here.
- **Error normalisation** (`ErrorNormalization`): the rejected-response
  handler that turns a failed request into one message by an ordered chain
  of tests (timeout, "Network Error", no response, 400 with or without
  field errors, 404, 500, any other status with a payload message, fallback).
  The chain is modelled as written (`NormalizeError`) and also as a
  taxonomy of cases (`ErrorKind`) with a per-case condition and a rank;
  `Classify` is proved to pick the earliest case whose condition holds.
- **Response unwrapping** (`ResponseUnwrapping`, `StudentService`): the
  shape detection `getStudents` applies to a list body, the
  `response.data.data || response.data` rule shared by the four
  single-record methods, the request each method sends, and what a caller
  observes once a request has settled.

JavaScript semantics the code leans on are modelled in `JsValue`: a `Json`
datatype with `undefined`, truthiness, `||`, `?.` property reads,
`typeof ... === 'object'`, `Object.values`, `flat()`, `join` and string
conversion (including integers printed in decimal). The result of the
handler is the message string that `new Error(errorMessage)` carries, so a
truthy non-string payload `message` is converted as `String(value)` would.

Two behaviours of the code that the model keeps:

- The "any other status" branch uses the payload `message` only when it is
  truthy (src/services/studentService.js:78).
- The single-record methods read `response.data.data` without a guard
  (src/services/studentService.js:105, 110, 115, 120), so a body of `null`
  or `undefined` throws a TypeError, which rejects the method's promise; the
  model keeps this as `RejectedWithTypeError` / `None`.

Files: `option.dfy` (Option), `js_value.dfy` (JavaScript values),
`api_config.dfy`, `error_normalization.dfy`, `response_unwrapping.dfy`,
`student_service.dfy`.

## Model

| member | source | states |
|---|---|---|
| ApiConfig.ApiBaseUrl | src/config/api.js:2-16 | the base URL is always one of the two table entries; it is the development URL exactly when the host name is "localhost" or "127.0.0.1" and the production URL exactly otherwise |
| ApiConfig.ConfigOf | src/config/api.js:2-9 | the two-row configuration table; EnvironmentOfUrl inverts it and ResolvedUrlIdentifiesEnvironment shows the rows differ |
| ApiConfig.EnvironmentOf | src/config/api.js:12-14 | development exactly for the host names "localhost" and "127.0.0.1"; ApiBaseUrl states both directions through the table and HostMatchingIsExact the exact comparison |
| ApiConfig.EnvironmentOfUrl | src/config/api.js:2-9 | looking a URL up in the table finds the environment whose row holds it, or reports that no row holds it |
| ApiConfig.ResolvedUrlIdentifiesEnvironment | src/config/api.js:12-16 | the two rows differ, so the resolved URL identifies the selected environment and is that environment's row |
| ApiConfig.HostMatchingIsExact | src/config/api.js:12-13 | host names are compared exactly: "LOCALHOST", " localhost", "127.0.0.2" and the empty name all resolve to production |
| JsValue.FalsyValues | src/services/studentService.js:68 | the falsy values are exactly undefined, null, false, 0 and ""; an empty object or array is truthy |
| JsValue.Or | src/services/studentService.js:72 | `a \|\| b` is truthy iff either operand is; it returns the first operand when that one is truthy, otherwise the second |
| JsValue.Lookup | src/services/studentService.js:68 | a property read yields undefined when no field has the key and otherwise the value of the first field with the key |
| JsValue.Prop | src/services/studentService.js:68 | for keys such as `data`, `errors` and `message`, which no built-in prototype defines, `v?.key` is undefined for every non-object and otherwise a value bound to `key` in the object |
| JsValue.PropOfUniqueField | src/services/studentService.js:68 | in an object with distinct keys, reading a key gives that field's value |
| JsValue.ObjectValues | src/services/studentService.js:69 | `Object.values` lists an array's elements, an object's field values in order, a string's characters, and nothing for booleans and numbers |
| JsValue.FlatAppend | src/services/studentService.js:69 | `flat()` distributes over concatenation |
| JsValue.ElementStrings | src/services/studentService.js:70 | `join` renders each string element as itself and null or undefined as the empty string |
| JsValue.JoinStringsLength | src/services/studentService.js:70 | a joined list is as long as its strings plus one separator between each pair of neighbours |
| JsValue.ArrayToStringIsJoin | src/services/studentService.js:82 | converting an array to a string joins its elements with "," |
| JsValue.TruthyNonArrayStringNonEmpty | src/services/studentService.js:82 | a truthy value that is not an array converts to a non-empty string |
| JsValue.ToJsString | src/services/studentService.js:82 | `String(v)` as `new Error`, `join` and template literals apply it; characterised by TruthyNonArrayStringNonEmpty (a truthy non-array is never "") and ArrayToStringIsJoin (an array prints as its `join(",")`) |
| JsValue.Flat | src/services/studentService.js:69 | every element of `xs.flat()` is an element spread from some element of `xs` (an array's items or the element itself); FlatAppend gives distribution over concatenation |
| JsValue.JoinStrings | src/services/studentService.js:70 | joining a single string gives that string; JoinStringsLength gives the exact length of any join |
| JsValue.JoinJs | src/services/studentService.js:70 | `join(sep)` on elements is the join of their ElementStrings renderings; FlattenedFieldErrors and ValidationMessageJoinsFieldErrors characterise it on field-error lists |
| JsValue.IntToDecimal | src/services/studentService.js:104 | the printed integer is non-empty and starts with "-" exactly when the integer is negative; IntToDecimalRoundTrip reads it back |
| JsValue.TypeofObject | src/services/studentService.js:95 | `typeof v === 'object'` (null, arrays, objects); StudentList's contract shows that together with the truthiness test it reduces to "array or object" |
| JsValue.NatToDecimalRoundTrip | src/services/studentService.js:104 | reading back the printed digits of a natural number gives the number |
| JsValue.IntToDecimalRoundTrip | src/services/studentService.js:104 | a negative integer prints as "-" and its magnitude, any other integer as digits that read back to it |
| ErrorNormalization.Classify | src/services/studentService.js:60-80 | the case chosen for an error has its own condition satisfied |
| ErrorNormalization.ClassifyIsEarliestMatch | src/services/studentService.js:60-80 | the chosen case is the earliest, in the handler's order, whose condition holds |
| ErrorNormalization.FirstMatchIsUnique | src/services/studentService.js:60-80 | any case that holds and precedes every other holding case is the chosen one |
| ErrorNormalization.KindMessage | src/services/studentService.js:60-80 | the message of each case; NormalizeError is proved equal to it on the case Classify picks, and the per-case lemmas below state each message |
| ErrorNormalization.NormalizeError | src/services/studentService.js:58-80 | the handler's message equals the message of the case the taxonomy assigns to the error |
| ErrorNormalization.ValidationText | src/services/studentService.js:69-70 | a validation message always begins with "Validation error: " |
| ErrorNormalization.TimeoutOverridesEverything | src/services/studentService.js:60-62 | code ECONNABORTED gives the timeout advice whatever the message and the response |
| ErrorNormalization.NetworkErrorOverridesResponse | src/services/studentService.js:63-64 | without a timeout, the message "Network Error" gives the cannot-connect text even when a response with a status exists |
| ErrorNormalization.MissingResponseMessage | src/services/studentService.js:65-66 | with neither of the first two cases and no response, the result is the connection-problem text |
| ErrorNormalization.BadRequestMessage | src/services/studentService.js:71-73 | status 400 without truthy `errors` gives the truthy payload `message` as a string, else "Invalid data provided" |
| ErrorNormalization.NotFoundIgnoresPayload | src/services/studentService.js:74-75 | status 404 gives "Resource not found" whatever the payload |
| ErrorNormalization.ServerErrorMessageLemma | src/services/studentService.js:76-77 | status 500 gives the truthy payload `message` as a string, else the server-error default |
| ErrorNormalization.OtherStatusMessage | src/services/studentService.js:58-80 | any status other than 400, 404 and 500 gives the truthy payload `message` as a string, else the initial fallback |
| ErrorNormalization.MessageOrigin | src/services/studentService.js:58-82 | every message is a fixed text, a validation summary, or the string form of the payload's truthy `message` |
| ErrorNormalization.MessageNonEmpty | src/services/studentService.js:72-82 | the message is non-empty whenever the case chosen is not one that uses a payload `message` (400 without `errors`, 500, other status) with an array there; `new Error([])` has the empty message |
| ErrorNormalization.EmptyArrayMessageGivesEmptyText | src/services/studentService.js:76-82 | a 500 whose payload `message` is `[]` yields the empty message, because `[]` is truthy and prints as "" |
| ErrorNormalization.FlattenedFieldErrors | src/services/studentService.js:69 | flattening the values of an `errors` object whose fields are string lists yields every field error in key order |
| ErrorNormalization.ValidationMessageJoinsFieldErrors | src/services/studentService.js:67-70 | status 400 with such an `errors` object gives "Validation error: " followed by all field errors in key order joined with ", " |
| ErrorNormalization.ValidationMessageLength | src/services/studentService.js:67-70 | with an `errors` object of string lists, the message is as long as the prefix, all field errors, and ", " between neighbouring errors |
| ErrorNormalization.EmptyErrorsObject | src/services/studentService.js:68-70 | an empty `errors` object is truthy and gives exactly "Validation error: " |
| ErrorNormalization.StringErrorsAreSplit | src/services/studentService.js:68-70 | `errors` given as the string "bad" is split into characters: "Validation error: b, a, d" |
| ErrorNormalization.ValidationExample | src/services/studentService.js:67-70 | `errors: {name: ["required"], age: ["must be positive"]}` gives "Validation error: required, must be positive" |
| ErrorNormalization.ServerErrorExample | src/services/studentService.js:76-77 | a 500 with payload `{message: "DB down"}` gives "DB down" |
| ResponseUnwrapping.StudentList | src/services/studentService.js:91-100 | a bare array is returned unchanged; otherwise an array `data` is returned; otherwise an object `data` as a one-element list; otherwise the empty list |
| ResponseUnwrapping.StudentListOrigin | src/services/studentService.js:91-100 | every listed record is an element of the body, an element of its `data`, or its `data` |
| ResponseUnwrapping.ListEnvelopeTransparent | src/services/studentService.js:93-96 | wrapping an array in `{data: ...}` changes nothing, and wrapping a record gives what the one-element array holding it gives |
| ResponseUnwrapping.UnrecognizedListShapes | src/services/studentService.js:97-100 | `{}`, null, undefined, scalars and envelopes around scalars or null all give the empty list |
| ResponseUnwrapping.StudentListExamples | src/services/studentService.js:91-100 | `[{id:1}]`, `{data: [{id:1}]}` and `{data: {id:1}}` give `[{id:1}]`; `{}` gives `[]` |
| ResponseUnwrapping.StudentRecord | src/services/studentService.js:105 | reading a record fails exactly for a null or undefined body; otherwise the result is truthy or is the body itself |
| ResponseUnwrapping.DataIsNotBody | src/services/studentService.js:105 | the `data` of a body is never the body itself (for every body but undefined) |
| ResponseUnwrapping.RecordEnvelopeRoundTrip | src/services/studentService.js:105 | unwrapping `{data: p}` gives back any truthy `p` |
| ResponseUnwrapping.BodyReturnedIff | src/services/studentService.js:105 | the whole body is returned exactly when it is readable and its `data` is falsy |
| ResponseUnwrapping.DataReturnedIff | src/services/studentService.js:105 | `data` is returned exactly when it is truthy |
| ResponseUnwrapping.FalsyDataFallsBack | src/services/studentService.js:105 | an envelope whose `data` is falsy is returned whole |
| StudentService.RequestOf | src/services/studentService.js:87-121 | only create and update send a body; only get-one, update and delete address a member path |
| StudentService.MemberPath | src/services/studentService.js:103-121 | `/students/${id}` as requested by get-one, update and delete (lines 104, 114, 119); PathIdRoundTrip recovers the printed id from it and NumericIdRoundTrip the number |
| StudentService.PathIdRoundTrip | src/services/studentService.js:103-121 | the member path gives back the id as the template literal printed it; the collection path has no id |
| StudentService.NumericIdRoundTrip | src/services/studentService.js:104 | an integer id appears in the path in decimal: a non-negative id as digits that read back to it, a negative id as "-" followed by the digits of its magnitude |
| StudentService.RequestsDistinguishOperations | src/services/studentService.js:87-121 | equal requests come from the same method with ids that print alike and the same payload |
| StudentService.Settle | src/services/studentService.js:45-121 | a call is rejected with the normalised message exactly when the request failed; the list method always resolves to a list on delivery; a single-record method resolves to a record unless the body is null or undefined, which rejects with a TypeError; the resolved list is `StudentList` of the body, the rejection message is `NormalizeError` of the error, and the resolved record is the one `StudentRecord` unwraps from the body |
| StudentService.SingleRecordValue | src/services/studentService.js:103-121 | get-one, create, update and delete resolve to `response.data.data` when it is truthy and to `response.data` otherwise, and reject with a TypeError when the body is null or undefined |
| StudentService.FailuresAreNormalized | src/services/studentService.js:45-82 | every method rejects a failed request with the normalised message |
| StudentService.SingleRecordMethodsAgree | src/services/studentService.js:103-121 | get-one, create, update and delete unwrap any body identically |
| StudentService.ListNeverFailsOnShape | src/services/studentService.js:87-101 | the list method resolves with the unwrapped list for every body |
| StudentService.GetStudentExamples | src/services/studentService.js:103-106 | `{data: {id:5,name:"A"}}` and `{id:5,name:"A"}` both give the record; id 5 is requested at "/students/5" |
| StudentService.CreateStudentServerErrorExample | src/services/studentService.js:108-111 | creating a student against a 500 with payload message "DB down" rejects with "DB down" |

## Left out

- The HTTP library instance, its default header and 30000 ms timeout, interceptor registration, dispatch, promises and `async`/`await`: a foreign library and network I/O. The model starts from the settled outcome (`StudentService.Outcome`), so which statuses the library treats as failures is an input.
- Console logging in the interceptors and in `getStudents`: side effects only.
- The module-level in-flight request counter (src/services/studentService.js:13, 18, 35, 46) and its commented-out loading events: mutable state with no consumer. Nothing in this file keeps the counter non-negative: it is incremented in the request interceptor's success branch and decremented in both response branches.
- The request interceptor's error branch (src/services/studentService.js:26-29), which logs and re-rejects the error it is given; when the HTTP library invokes it is library behaviour outside this model.
- The read of the browser's host name: `ApiConfig.ApiBaseUrl` takes it as a parameter, and its once-per-load evaluation is not modelled.
- Construction of the `Error` object and the rejection itself: only the message string is modelled.
- Joining the base URL with a request path, which the HTTP library performs.
- JsValue.Json: numbers are unbounded integers; fractions, NaN, the infinities and -0 are not modelled.
- JsValue.IntToDecimal: prints every digit of the integer exactly. JavaScript numbers are doubles, so above 2^53 `String(n)` prints the shortest digits that round-trip (`String(2**64)` is "18446744073709552000") and from 10^21 on uses exponent form; the model does not, which affects a numeric payload `message` and a numeric id in a request path.
- JsValue.ToJsString: an object is printed as "[object Object]"; objects whose fields named `toString` or `valueOf` change or break that conversion are not modelled.
- JsValue.Lookup: objects are field lists in JavaScript's enumeration order; a list with a repeated key, which no JavaScript object has, reads the first binding.
- JsValue.ObjectValues: strings are sequences of Dafny `char`, which are Unicode scalar values, so `Object.values` on a string yields one element per scalar value. JavaScript yields one element per UTF-16 code unit, so a character outside the Basic Multilingual Plane gives two lone surrogates there (`Object.values("😀").length` is 2) and one element here; this reaches `ValidationText` when `errors` is a string.

=== FILE: api_config.dfy ===
/**
 * The configuration module: a fixed table of two environments and the
 * choice of the API base URL from the page's host name. The host name is a
 * parameter here; the application reads it once from the browser.
 */
module ApiConfig {
  import opened Optional

  datatype Environment = Development | Production

  /** One row of the configuration table. */
  datatype EnvConfig = EnvConfig(apiBaseURL: string)

  const DevelopmentBaseUrl: string := "http://localhost:3000/api"
  const ProductionBaseUrl: string := "https://student-management-backend-7izx.onrender.com"

  /** The configuration table. */
  function ConfigOf(env: Environment): EnvConfig {
    match env
    case Development => EnvConfig(DevelopmentBaseUrl)
    case Production => EnvConfig(ProductionBaseUrl)
  }

  /** The environment a host name selects: development for the two loopback
      names, compared character by character, and production for anything
      else. */
  function EnvironmentOf(hostname: string): Environment {
    if hostname == "localhost" || hostname == "127.0.0.1" then Development else Production
  }

  /** The base URL every request of the client is sent relative to. */
  function ApiBaseUrl(hostname: string): (url: string)
    ensures url == DevelopmentBaseUrl || url == ProductionBaseUrl
    ensures url == DevelopmentBaseUrl <==> hostname == "localhost" || hostname == "127.0.0.1"
    ensures url == ProductionBaseUrl <==> hostname != "localhost" && hostname != "127.0.0.1"
  {
    ConfigOf(EnvironmentOf(hostname)).apiBaseURL
  }

  /** Reverse lookup in the table: which environment a base URL belongs to. */
  function EnvironmentOfUrl(url: string): (env: Option<Environment>)
    ensures env.Some? ==> ConfigOf(env.value).apiBaseURL == url
    ensures env.None? ==> forall e: Environment :: ConfigOf(e).apiBaseURL != url
  {
    if url == DevelopmentBaseUrl then Some(Development)
    else if url == ProductionBaseUrl then Some(Production)
    else None
  }

  /** The two table entries differ, so the resolved URL identifies the
      environment that was selected. */
  lemma ResolvedUrlIdentifiesEnvironment(hostname: string)
    ensures EnvironmentOfUrl(ApiBaseUrl(hostname)) == Some(EnvironmentOf(hostname))
    ensures ApiBaseUrl(hostname) == ConfigOf(EnvironmentOf(hostname)).apiBaseURL
  {
  }

  /** No case folding and no trimming: near misses of the development names
      resolve to production. */
  lemma HostMatchingIsExact()
    ensures ApiBaseUrl("LOCALHOST") == ProductionBaseUrl
    ensures ApiBaseUrl("Localhost") == ProductionBaseUrl
    ensures ApiBaseUrl(" localhost") == ProductionBaseUrl
    ensures ApiBaseUrl("localhost.") == ProductionBaseUrl
    ensures ApiBaseUrl("127.0.0.2") == ProductionBaseUrl
    ensures ApiBaseUrl("") == ProductionBaseUrl
  {
  }
}

=== FILE: error_normalization.dfy ===
/**
 * The rejected-response handler of the API client: every failed request is
 * turned into one human-readable message by a chain of tests whose first
 * match wins. The handler's logging and the in-flight counter are not part
 * of this model; the message is what the caller receives, wrapped in an
 * `Error`.
 */
module ErrorNormalization {
  import opened Optional
  import opened JsValue

  /** The error code the HTTP library sets when a request exceeded its timeout. */
  const Econnaborted: string := "ECONNABORTED"
  /** The message the HTTP library gives a request that could not reach the server. */
  const NetworkErrorText: string := "Network Error"

  const TimeoutMessage: string :=
    "Request took too long. The student may have been created/updated but the response timed out. Please check the list."
  const CannotConnectMessage: string := "Cannot connect to server. Please check if the backend is running."
  const NoResponseMessage: string := "Network error - please check your connection"
  const ValidationPrefix: string := "Validation error: "
  const InvalidDataMessage: string := "Invalid data provided"
  const NotFoundMessage: string := "Resource not found"
  const ServerErrorMessage: string := "Server error - please check backend console"
  const UnexpectedMessage: string := "An unexpected error occurred"

  /** The messages that do not depend on the response payload. */
  const FixedMessages: set<string> := {
    TimeoutMessage, CannotConnectMessage, NoResponseMessage, InvalidDataMessage,
    NotFoundMessage, ServerErrorMessage, UnexpectedMessage
  }

  /** The part of a received response the handler looks at. */
  datatype Response = Response(status: int, data: Json)

  /** A failed request as the HTTP library reports it: an optional error
      code, a message, and the response when one arrived. */
  datatype HttpError = HttpError(code: Option<string>, message: string, response: Option<Response>)

  /** The failure taxonomy, one case per test of the handler. */
  datatype ErrorKind =
    | Timeout
    | NetworkUnreachable
    | NoResponse
    | Validation
    | BadRequest
    | NotFound
    | ServerError
    | OtherStatus
    | Unknown

  /** The position of a case in the order the handler tests them. */
  function Rank(k: ErrorKind): nat {
    match k
    case Timeout => 0
    case NetworkUnreachable => 1
    case NoResponse => 2
    case Validation => 3
    case BadRequest => 4
    case NotFound => 5
    case ServerError => 6
    case OtherStatus => 7
    case Unknown => 8
  }

  /** `response.data?.key` for an error that carries a response. */
  function Payload(e: HttpError, key: string): Json
    requires e.response.Some?
  {
    Prop(e.response.value.data, key)
  }

  function Status(e: HttpError): int
    requires e.response.Some?
  {
    e.response.value.status
  }

  /** The condition of each case taken on its own, ignoring the cases tested
      before it. */
  predicate Matches(k: ErrorKind, e: HttpError) {
    match k
    case Timeout => e.code == Some(Econnaborted)
    case NetworkUnreachable => e.message == NetworkErrorText
    case NoResponse => e.response.None?
    case Validation => e.response.Some? && Status(e) == 400 && Truthy(Payload(e, "errors"))
    case BadRequest => e.response.Some? && Status(e) == 400
    case NotFound => e.response.Some? && Status(e) == 404
    case ServerError => e.response.Some? && Status(e) == 500
    case OtherStatus => e.response.Some? && Truthy(Payload(e, "message"))
    case Unknown => true
  }

  /** The case an error falls into: the earliest case whose condition holds. */
  function Classify(e: HttpError): (k: ErrorKind)
    ensures Matches(k, e)
  {
    if e.code == Some(Econnaborted) then Timeout
    else if e.message == NetworkErrorText then NetworkUnreachable
    else if e.response.None? then NoResponse
    else if Status(e) == 400 then (if Truthy(Payload(e, "errors")) then Validation else BadRequest)
    else if Status(e) == 404 then NotFound
    else if Status(e) == 500 then ServerError
    else if Truthy(Payload(e, "message")) then OtherStatus
    else Unknown
  }

  /** The case `Classify` picks is the earliest case whose condition holds:
      its own test succeeds and every case ranked before it fails. */
  lemma ClassifyIsEarliestMatch(e: HttpError)
    ensures Matches(Classify(e), e)
    ensures forall k :: Matches(k, e) ==> Rank(Classify(e)) <= Rank(k)
  {
  }

  /** The earliest matching case is unique: no two cases share a rank. */
  lemma FirstMatchIsUnique(e: HttpError, k: ErrorKind)
    requires Matches(k, e)
    requires forall k' :: Matches(k', e) ==> Rank(k) <= Rank(k')
    ensures k == Classify(e)
  {
  }

  /** `Validation error: ` followed by every field error, `errors` being
      turned into a list by `Object.values(...).flat()` and joined with ", ". */
  function ValidationText(errors: Json): (msg: string)
    requires Truthy(errors)
    ensures ValidationPrefix <= msg
  {
    ValidationPrefix + JoinJs(Flat(ObjectValues(errors)), ", ")
  }

  /** The message each case produces. A payload message is used when it is
      truthy and is converted to a string by `new Error`. */
  function KindMessage(k: ErrorKind, e: HttpError): string
    requires Matches(k, e)
  {
    match k
    case Timeout => TimeoutMessage
    case NetworkUnreachable => CannotConnectMessage
    case NoResponse => NoResponseMessage
    case Validation => ValidationText(Payload(e, "errors"))
    case BadRequest => ToJsString(Or(Payload(e, "message"), JStr(InvalidDataMessage)))
    case NotFound => NotFoundMessage
    case ServerError => ToJsString(Or(Payload(e, "message"), JStr(ServerErrorMessage)))
    case OtherStatus => ToJsString(Payload(e, "message"))
    case Unknown => UnexpectedMessage
  }

  /** The handler as written: a default message, overwritten by the first
      branch of the `if` chain that applies. */
  function NormalizeError(e: HttpError): (msg: string)
    ensures msg == KindMessage(Classify(e), e)
  {
    var errorMessage := UnexpectedMessage;
    if e.code == Some(Econnaborted) then TimeoutMessage
    else if e.message == NetworkErrorText then CannotConnectMessage
    else if e.response.None? then NoResponseMessage
    else if e.response.value.status == 400 then
      if Truthy(Payload(e, "errors")) then ValidationText(Payload(e, "errors"))
      else ToJsString(Or(Payload(e, "message"), JStr(InvalidDataMessage)))
    else if e.response.value.status == 404 then NotFoundMessage
    else if e.response.value.status == 500 then
      ToJsString(Or(Payload(e, "message"), JStr(ServerErrorMessage)))
    else if Truthy(Payload(e, "message")) then ToJsString(Payload(e, "message"))
    else errorMessage
  }

  // ---------------------------------------------------------------------
  // Precedence

  /** A timeout wins over everything else the error carries. */
  lemma TimeoutOverridesEverything(message: string, response: Option<Response>)
    ensures NormalizeError(HttpError(Some(Econnaborted), message, response)) == TimeoutMessage
  {
  }

  /** A "Network Error" message wins over any response, whatever its status. */
  lemma NetworkErrorOverridesResponse(code: Option<string>, response: Option<Response>)
    requires code != Some(Econnaborted)
    ensures NormalizeError(HttpError(code, NetworkErrorText, response)) == CannotConnectMessage
  {
  }

  lemma MissingResponseMessage(code: Option<string>, message: string)
    requires code != Some(Econnaborted) && message != NetworkErrorText
    ensures NormalizeError(HttpError(code, message, None)) == NoResponseMessage
  {
  }

  /** Status 404 gives the same message whatever the payload says. */
  lemma NotFoundIgnoresPayload(code: Option<string>, message: string, data: Json)
    requires code != Some(Econnaborted) && message != NetworkErrorText
    ensures NormalizeError(HttpError(code, message, Some(Response(404, data)))) == NotFoundMessage
  {
  }

  // ---------------------------------------------------------------------
  // Payload messages

  /** Status 400 without a truthy `errors`: the payload's truthy `message`,
      otherwise the default. */
  lemma BadRequestMessage(code: Option<string>, message: string, data: Json)
    requires code != Some(Econnaborted) && message != NetworkErrorText
    requires !Truthy(Prop(data, "errors"))
    ensures var msg := NormalizeError(HttpError(code, message, Some(Response(400, data))));
      if Truthy(Prop(data, "message")) then msg == ToJsString(Prop(data, "message"))
      else msg == InvalidDataMessage
  {
  }

  /** Status 500: the payload's truthy `message`, otherwise the default. */
  lemma ServerErrorMessageLemma(code: Option<string>, message: string, data: Json)
    requires code != Some(Econnaborted) && message != NetworkErrorText
    ensures var msg := NormalizeError(HttpError(code, message, Some(Response(500, data))));
      if Truthy(Prop(data, "message")) then msg == ToJsString(Prop(data, "message"))
      else msg == ServerErrorMessage
  {
  }

  /** Any other status: the payload's truthy `message`, otherwise the
      fallback. */
  lemma OtherStatusMessage(code: Option<string>, message: string, status: int, data: Json)
    requires code != Some(Econnaborted) && message != NetworkErrorText
    requires status != 400 && status != 404 && status != 500
    ensures var msg := NormalizeError(HttpError(code, message, Some(Response(status, data))));
      if Truthy(Prop(data, "message")) then msg == ToJsString(Prop(data, "message"))
      else msg == UnexpectedMessage
  {
  }

  /** Every message is one of the fixed ones, a validation summary, or the
      string form of the payload's truthy `message`. */
  lemma MessageOrigin(e: HttpError)
    ensures var msg := NormalizeError(e);
      || msg in FixedMessages
      || ValidationPrefix <= msg
      || (e.response.Some? && Truthy(Payload(e, "message")) && msg == ToJsString(Payload(e, "message")))
  {
  }

  /** The message is never empty unless it comes from a payload `message`
      that is an array (`new Error([])` has the empty message): only the
      three cases that may use the payload `message` need it not to be one. */
  lemma MessageNonEmpty(e: HttpError)
    requires Classify(e) in {BadRequest, ServerError, OtherStatus} ==> !Payload(e, "message").JArr?
    ensures NormalizeError(e) != ""
  {
    if Classify(e) in {BadRequest, ServerError, OtherStatus} {
      var m := Payload(e, "message");
      if Truthy(m) {
        TruthyNonArrayStringNonEmpty(m);
      }
    }
  }

  lemma EmptyArrayMessageGivesEmptyText()
    ensures NormalizeError(HttpError(None, "Request failed with status code 500",
      Some(Response(500, JObj([Field("message", JArr([]))]))))) == ""
  {
  }

  // ---------------------------------------------------------------------
  // Validation errors

  predicate IsStringList(v: Json) {
    v.JArr? && forall j :: 0 <= j < |v.items| ==> v.items[j].JStr?
  }

  /** An `errors` object in the expected shape: every field holds a list of
      strings. */
  predicate IsFieldErrorMap(fields: seq<Field>) {
    forall i :: 0 <= i < |fields| ==> IsStringList(fields[i].value)
  }

  function StringsOf(items: seq<Json>): (ss: seq<string>)
    requires forall j :: 0 <= j < |items| ==> items[j].JStr?
    ensures |ss| == |items|
  {
    seq(|items|, j requires 0 <= j < |items| => items[j].s)
  }

  /** Reference definition: the field error lists concatenated in key order. */
  function AllFieldErrors(fields: seq<Field>): seq<string>
    requires IsFieldErrorMap(fields)
  {
    if fields == [] then []
    else StringsOf(fields[0].value.items) + AllFieldErrors(fields[1..])
  }

  lemma ElementStringsAppend(a: seq<Json>, b: seq<Json>)
    ensures ElementStrings(a + b) == ElementStrings(a) + ElementStrings(b)
  {
  }

  /** Flattening the field values of a well-shaped `errors` object and
      converting each element for `join` lists every field error, in key
      order. */
  lemma {:induction false} FlattenedFieldErrors(fields: seq<Field>)
    requires IsFieldErrorMap(fields)
    ensures ElementStrings(Flat(FieldValues(fields))) == AllFieldErrors(fields)
  {
    if fields != [] {
      var v := fields[0].value;
      var rest := FieldValues(fields[1..]);
      assert FieldValues(fields) == [v] + rest;
      FlatAppend([v], rest);
      assert Flat([v]) == v.items by {
        assert [v][1..] == [];
      }
      ElementStringsAppend(v.items, Flat(rest));
      assert ElementStrings(v.items) == StringsOf(v.items);
      FlattenedFieldErrors(fields[1..]);
    }
  }

  /** Status 400 with an `errors` object in the expected shape: the prefix
      followed by every field error, in key order, joined with ", ". */
  lemma ValidationMessageJoinsFieldErrors(code: Option<string>, message: string, data: Json, fields: seq<Field>)
    requires code != Some(Econnaborted) && message != NetworkErrorText
    requires Prop(data, "errors") == JObj(fields)
    requires IsFieldErrorMap(fields)
    ensures NormalizeError(HttpError(code, message, Some(Response(400, data))))
            == ValidationPrefix + JoinStrings(AllFieldErrors(fields), ", ")
  {
    FlattenedFieldErrors(fields);
  }

  /** The length of a validation message: the prefix, every field error,
      and ", " between each pair of neighbouring errors. */
  lemma ValidationMessageLength(code: Option<string>, message: string, data: Json, fields: seq<Field>)
    requires code != Some(Econnaborted) && message != NetworkErrorText
    requires Prop(data, "errors") == JObj(fields)
    requires IsFieldErrorMap(fields)
    ensures var errs := AllFieldErrors(fields);
      |NormalizeError(HttpError(code, message, Some(Response(400, data))))|
      == |ValidationPrefix| + TotalLength(errs) + (if errs == [] then 0 else (|errs| - 1) * 2)
  {
    ValidationMessageJoinsFieldErrors(code, message, data, fields);
    JoinStringsLength(AllFieldErrors(fields), ", ");
  }

  /** An empty `errors` object is truthy, so it still selects the validation
      branch, with nothing after the prefix. */
  lemma EmptyErrorsObject(code: Option<string>, message: string, data: Json)
    requires code != Some(Econnaborted) && message != NetworkErrorText
    requires Prop(data, "errors") == JObj([])
    ensures NormalizeError(HttpError(code, message, Some(Response(400, data)))) == ValidationPrefix
  {
  }

  /** `errors` given as a string is split into its characters by
      `Object.values`. */
  lemma StringErrorsAreSplit(code: Option<string>, message: string)
    requires code != Some(Econnaborted) && message != NetworkErrorText
    ensures NormalizeError(HttpError(code, message,
      Some(Response(400, JObj([Field("errors", JStr("bad"))]))))) == "Validation error: b, a, d"
  {
  }

  /** The `errors` object of the worked example below. */
  const ExampleFieldErrors: seq<Field> := [
    Field("name", JArr([JStr("required")])),
    Field("age", JArr([JStr("must be positive")]))
  ]

  /** The example's field errors, in key order. */
  lemma ExampleFieldErrorsListed()
    ensures IsFieldErrorMap(ExampleFieldErrors)
    ensures AllFieldErrors(ExampleFieldErrors) == ["required", "must be positive"]
  {
  }

  /** The example's two errors joined after the prefix. */
  lemma ExampleMessageText(msg: string)
    requires msg == ValidationPrefix + JoinStrings(["required", "must be positive"], ", ")
    ensures msg == "Validation error: required, must be positive"
  {
  }

  /** The worked example: a 400 response whose `errors` object has two
      fields with one error each. */
  lemma ValidationExample(code: Option<string>, message: string, data: Json)
    requires code != Some(Econnaborted) && message != NetworkErrorText
    requires Prop(data, "errors") == JObj(ExampleFieldErrors)
    ensures NormalizeError(HttpError(code, message, Some(Response(400, data))))
      == "Validation error: required, must be positive"
  {
    ExampleFieldErrorsListed();
    var msg := NormalizeError(HttpError(code, message, Some(Response(400, data))));
    ValidationMessageJoinsFieldErrors(code, message, data, ExampleFieldErrors);
    ExampleMessageText(msg);
  }

  /** A server error whose payload names the cause reports that cause. */
  lemma ServerErrorExample()
    ensures NormalizeError(HttpError(None, "Request failed with status code 500",
      Some(Response(500, JObj([Field("message", JStr("DB down"))]))))) == "DB down"
  {
  }
}

=== FILE: js_value.dfy ===
/**
 * JSON values as a JavaScript program sees them once a response body has
 * been parsed, together with the few pieces of JavaScript semantics the
 * client relies on: truthiness, the `||` operator, reading a property with
 * `?.`, `typeof`, `Array.isArray`, `Object.values`, `Array.prototype.flat`,
 * `Array.prototype.join` and conversion to a string.
 */
module JsValue {

  /** A JavaScript value that can appear in a parsed body, plus `undefined`,
      which is what reading a missing property yields. Numbers are integers
      here. The fields of an object are listed in the order JavaScript
      enumerates them. */
  datatype Json =
    | JUndefined
    | JNull
    | JBool(b: bool)
    | JNum(n: int)
    | JStr(s: string)
    | JArr(items: seq<Json>)
    | JObj(fields: seq<Field>)

  datatype Field = Field(key: string, value: Json)

  /** `null` and `undefined`: the values `?.` stops at and `.` throws on. */
  predicate Nullish(v: Json) {
    v.JUndefined? || v.JNull?
  }

  /** JavaScript truthiness: what `if (v)`, `!v` and `&&`/`||` test. */
  predicate Truthy(v: Json) {
    match v
    case JUndefined => false
    case JNull => false
    case JBool(b) => b
    case JNum(n) => n != 0
    case JStr(s) => s != ""
    case JArr(_) => true
    case JObj(_) => true
  }

  /** The falsy values are exactly undefined, null, false, 0 and "";
      in particular an empty array or an empty object is truthy. */
  lemma FalsyValues(v: Json)
    ensures !Truthy(v) <==> v in {JUndefined, JNull, JBool(false), JNum(0), JStr("")}
  {
  }

  /** `a || b`: the first operand when it is truthy, otherwise the second. */
  function Or(a: Json, b: Json): (r: Json)
    ensures Truthy(r) <==> Truthy(a) || Truthy(b)
    ensures Truthy(a) ==> r == a
    ensures !Truthy(a) ==> r == b
  {
    if Truthy(a) then a else b
  }

  /** `typeof v === 'object'`, which holds for null as well. */
  predicate TypeofObject(v: Json) {
    v.JNull? || v.JArr? || v.JObj?
  }

  /** The value bound to `key` in a field list: the first binding, or
      `undefined` when there is none. */
  function Lookup(fields: seq<Field>, key: string): (r: Json)
    ensures (forall i :: 0 <= i < |fields| ==> fields[i].key != key) ==> r == JUndefined
    ensures forall i :: 0 <= i < |fields| && fields[i].key == key && FirstKeyAt(fields, key, i) ==> r == fields[i].value
    ensures r == JUndefined || exists i :: 0 <= i < |fields| && fields[i] == Field(key, r)
  {
    if fields == [] then JUndefined
    else if fields[0].key == key then fields[0].value
    else
      var r := Lookup(fields[1..], key);
      assert forall i :: 1 <= i < |fields| && FirstKeyAt(fields, key, i) ==> FirstKeyAt(fields[1..], key, i - 1);
      assert r != JUndefined ==> exists i :: 0 <= i < |fields[1..]| && fields[1..][i] == Field(key, r);
      r
  }

  /** No field before position `i` carries `key`. */
  predicate FirstKeyAt(fields: seq<Field>, key: string, i: int)
    requires 0 <= i <= |fields|
  {
    forall j :: 0 <= j < i ==> fields[j].key != key
  }

  /** `v?.key`, for a key that names no built-in property of strings,
      numbers, booleans or arrays (`data`, `errors` and `message` do not):
      an object's binding for `key`, and `undefined` for every other value. */
  function Prop(v: Json, key: string): (r: Json)
    ensures !v.JObj? ==> r == JUndefined
    ensures r == JUndefined || exists i :: 0 <= i < |v.fields| && v.fields[i] == Field(key, r)
  {
    if v.JObj? then Lookup(v.fields, key) else JUndefined
  }

  /** Every key occurs at most once, as in any object JavaScript builds. */
  predicate UniqueKeys(fields: seq<Field>) {
    forall i, j :: 0 <= i < j < |fields| ==> fields[i].key != fields[j].key
  }

  /** In an object with distinct keys, `o.key` reads the field named `key`. */
  lemma PropOfUniqueField(fields: seq<Field>, i: nat)
    requires UniqueKeys(fields)
    requires i < |fields|
    ensures Prop(JObj(fields), fields[i].key) == fields[i].value
  {
  }

  /** The values of a field list, in order. */
  function FieldValues(fields: seq<Field>): (r: seq<Json>)
    ensures |r| == |fields|
    ensures forall i :: 0 <= i < |fields| ==> r[i] == fields[i].value
  {
    if fields == [] then [] else [fields[0].value] + FieldValues(fields[1..])
  }

  /** `Object.values(v)`, which throws on null and undefined: an array's
      elements, an object's field values, a string's characters as
      one-character strings, and nothing for a boolean or a number. */
  function ObjectValues(v: Json): (r: seq<Json>)
    requires !Nullish(v)
    ensures v.JArr? ==> r == v.items
    ensures v.JObj? ==> |r| == |v.fields| && forall i :: 0 <= i < |r| ==> r[i] == v.fields[i].value
    ensures v.JStr? ==> |r| == |v.s| && forall i :: 0 <= i < |r| ==> r[i] == JStr([v.s[i]])
    ensures v.JBool? || v.JNum? ==> r == []
  {
    match v
    case JArr(items) => items
    case JObj(fields) => FieldValues(fields)
    case JStr(s) => seq(|s|, i requires 0 <= i < |s| => JStr([s[i]]))
    case JBool(_) => []
    case JNum(_) => []
  }

  /** What one element contributes to `flat()`: an array its elements, any
      other value itself. */
  function Spread(x: Json): seq<Json> {
    if x.JArr? then x.items else [x]
  }

  /** `xs.flat()`: one level of nested arrays is spliced into the result. */
  function Flat(xs: seq<Json>): (r: seq<Json>)
    ensures forall x :: x in r ==> (exists y :: y in xs && x in Spread(y))
  {
    if xs == [] then [] else Spread(xs[0]) + Flat(xs[1..])
  }

  /** Flattening distributes over concatenation. */
  lemma {:induction false} FlatAppend(a: seq<Json>, b: seq<Json>)
    ensures Flat(a + b) == Flat(a) + Flat(b)
  {
    if a == [] {
      assert a + b == b;
    } else {
      assert (a + b)[0] == a[0];
      assert (a + b)[1..] == a[1..] + b;
      FlatAppend(a[1..], b);
    }
  }

  /** A sequence of strings joined with `sep` between neighbours. */
  function JoinStrings(ss: seq<string>, sep: string): (r: string)
    ensures |ss| == 1 ==> r == ss[0]
  {
    if ss == [] then ""
    else if |ss| == 1 then ss[0]
    else ss[0] + sep + JoinStrings(ss[1..], sep)
  }

  /** The length of a joined list: every string plus one separator between
      each pair of neighbours. */
  lemma {:induction false} JoinStringsLength(ss: seq<string>, sep: string)
    ensures |JoinStrings(ss, sep)| == TotalLength(ss) + (if ss == [] then 0 else (|ss| - 1) * |sep|)
  {
    if |ss| > 1 {
      JoinStringsLength(ss[1..], sep);
    }
  }

  function TotalLength(ss: seq<string>): nat {
    if ss == [] then 0 else |ss[0]| + TotalLength(ss[1..])
  }

  /** How `join` renders one element: null and undefined become the empty
      string, every other value its string conversion. */
  function JoinElement(x: Json): string
    decreases x, 2
  {
    if Nullish(x) then "" else ToJsString(x)
  }

  /** The strings `join` glues together for a list of elements. */
  function ElementStrings(xs: seq<Json>): (r: seq<string>)
    ensures |r| == |xs|
    ensures forall i :: 0 <= i < |xs| && xs[i].JStr? ==> r[i] == xs[i].s
    ensures forall i :: 0 <= i < |xs| && Nullish(xs[i]) ==> r[i] == ""
  {
    var r := seq(|xs|, i requires 0 <= i < |xs| => JoinElement(xs[i]));
    assert forall i :: 0 <= i < |xs| && xs[i].JStr? ==> r[i] == ToJsString(xs[i]) == xs[i].s;
    r
  }

  /** `String(v)`, the conversion a template literal, `join` and
      `new Error(v)` apply. Arrays join their elements with ","; a plain
      object prints as "[object Object]". */
  function ToJsString(v: Json): string
    decreases v, 1
  {
    match v
    case JUndefined => "undefined"
    case JNull => "null"
    case JBool(b) => if b then "true" else "false"
    case JNum(n) => IntToDecimal(n)
    case JStr(s) => s
    case JArr(items) =>
      JoinStrings(seq(|items|, i requires 0 <= i < |items| => JoinElement(items[i])), ",")
    case JObj(_) => "[object Object]"
  }

  /** `join` on a list of elements is the join of their element strings. */
  function JoinJs(xs: seq<Json>, sep: string): string {
    JoinStrings(ElementStrings(xs), sep)
  }

  /** An array's string conversion is its `join(",")`. */
  lemma ArrayToStringIsJoin(items: seq<Json>)
    ensures ToJsString(JArr(items)) == JoinJs(items, ",")
  {
  }

  /** A truthy value other than an array never converts to the empty string;
      an array can (`String([])` and `String([null])` are ""). */
  lemma TruthyNonArrayStringNonEmpty(v: Json)
    requires Truthy(v) && !v.JArr?
    ensures ToJsString(v) != ""
  {
  }

  // ---------------------------------------------------------------------
  // Integer to decimal text, as `String(n)` prints an integer.

  predicate IsDigit(c: char) {
    '0' <= c <= '9'
  }

  predicate AllDigits(s: string) {
    forall i :: 0 <= i < |s| ==> IsDigit(s[i])
  }

  function DigitChar(d: nat): (c: char)
    requires d < 10
    ensures IsDigit(c)
  {
    "0123456789"[d]
  }

  function DigitValue(c: char): (d: nat)
    requires IsDigit(c)
    ensures d < 10
  {
    (c as int - '0' as int) as nat
  }

  /** The decimal text of a natural number, with no leading zero. */
  function NatToDecimal(n: nat): (s: string)
    ensures |s| > 0 && AllDigits(s)
    ensures |s| > 1 ==> s[0] != '0'
    ensures n > 0 ==> s[0] != '0'
  {
    if n < 10 then [DigitChar(n)]
    else NatToDecimal(n / 10) + [DigitChar(n % 10)]
  }

  /** The number a string of decimal digits denotes. */
  function DecimalValue(s: string): nat
    requires AllDigits(s)
  {
    if s == [] then 0
    else DecimalValue(s[..|s| - 1]) * 10 + DigitValue(s[|s| - 1])
  }

  /** Reading the printed digits back gives the number. */
  lemma {:induction false} NatToDecimalRoundTrip(n: nat)
    ensures DecimalValue(NatToDecimal(n)) == n
  {
    var s := NatToDecimal(n);
    if n < 10 {
      assert s[..|s| - 1] == [];
      assert DigitValue(DigitChar(n)) == n by {
        assert "0123456789"[n] as int - '0' as int == n;
      }
    } else {
      var p := NatToDecimal(n / 10);
      assert s[..|s| - 1] == p;
      assert DigitValue(DigitChar(n % 10)) == n % 10 by {
        assert "0123456789"[n % 10] as int - '0' as int == n % 10;
      }
      NatToDecimalRoundTrip(n / 10);
    }
  }

  /** `String(n)` for an integer: a minus sign before a negative number's
      magnitude. */
  function IntToDecimal(n: int): (s: string)
    ensures |s| > 0
    ensures s[0] == '-' <==> n < 0
  {
    if n < 0 then "-" + NatToDecimal(-n) else NatToDecimal(n)
  }

  /** The decimal text of an integer determines the integer: a negative
      number prints as "-" and the digits of its magnitude, any other
      number as its digits. */
  lemma IntToDecimalRoundTrip(n: int)
    ensures n < 0 ==> IntToDecimal(n) == "-" + NatToDecimal(-n) && DecimalValue(NatToDecimal(-n)) == -n
    ensures n >= 0 ==> AllDigits(IntToDecimal(n)) && DecimalValue(IntToDecimal(n)) == n
  {
    if n < 0 {
      NatToDecimalRoundTrip(-n);
    } else {
      NatToDecimalRoundTrip(n);
    }
  }
}

=== FILE: option.dfy ===
/** An optional value: a JavaScript property or response that may be absent. */
module Optional {

  datatype Option<+T> = None | Some(value: T)
}

=== FILE: response_unwrapping.dfy ===
/**
 * How the student service turns a successful response body into what its
 * methods return. The backend may send a bare value or an envelope whose
 * `data` field holds it. The list method recognises the shapes in a fixed
 * order and never rejects a body it does not recognise. The single-record
 * methods return `data` when it is truthy and the body otherwise, and reject
 * with a TypeError when the body is null or undefined.
 */
module ResponseUnwrapping {
  import opened Optional
  import opened JsValue

  /** `body.data`, read only after the body is known not to be null. */
  function DataOf(body: Json): Json {
    Prop(body, "data")
  }

  /** The envelope `{ data: payload }`. */
  function Envelope(payload: Json): Json {
    JObj([Field("data", payload)])
  }

  /** The body of a list response as `getStudents` returns it: a bare array
      unchanged, else an array in `data`, else a record in `data` as a
      one-element list, else the empty list. The code's truthiness and
      `typeof` guards reduce to "`data` is an array" and "`data` is an
      object", because reading `data` of anything but an object gives
      `undefined`. */
  function StudentList(body: Json): (list: seq<Json>)
    ensures body.JArr? ==> list == body.items
    ensures !body.JArr? && DataOf(body).JArr? ==> list == DataOf(body).items
    ensures !body.JArr? && DataOf(body).JObj? ==> list == [DataOf(body)]
    ensures !body.JArr? && !DataOf(body).JArr? && !DataOf(body).JObj? ==> list == []
  {
    if body.JArr? then body.items
    else if Truthy(body) && DataOf(body).JArr? then DataOf(body).items
    else if Truthy(body) && Truthy(DataOf(body)) && TypeofObject(DataOf(body)) then [DataOf(body)]
    else []
  }

  /** Every listed record comes from the body: an element of the body, an
      element of its `data`, or its `data` itself. */
  lemma StudentListOrigin(body: Json)
    ensures forall x :: x in StudentList(body) ==>
      (body.JArr? && x in body.items)
      || (DataOf(body).JArr? && x in DataOf(body).items)
      || (DataOf(body).JObj? && x == DataOf(body))
  {
  }

  /** The envelope is transparent to the list method: an array inside
      `data` is returned as the bare array would be, and a record inside
      `data` as the one-element array holding it would be. */
  lemma ListEnvelopeTransparent(payload: Json)
    requires payload.JArr? || payload.JObj?
    ensures payload.JArr? ==> StudentList(Envelope(payload)) == StudentList(payload)
    ensures payload.JObj? ==> StudentList(Envelope(payload)) == StudentList(JArr([payload]))
  {
  }

  /** Shapes the list method does not recognise give the empty list rather
      than a failure. */
  lemma UnrecognizedListShapes(s: string, n: int, b: bool)
    ensures StudentList(JObj([])) == []
    ensures StudentList(JNull) == [] && StudentList(JUndefined) == []
    ensures StudentList(JStr(s)) == [] && StudentList(JNum(n)) == [] && StudentList(JBool(b)) == []
    ensures StudentList(Envelope(JStr(s))) == [] && StudentList(Envelope(JNum(n))) == []
    ensures StudentList(Envelope(JNull)) == [] && StudentList(Envelope(JBool(b))) == []
  {
  }

  /** The record `{id: 1}` used by the examples. */
  const RecordOne: Json := JObj([Field("id", JNum(1))])

  lemma StudentListExamples()
    ensures StudentList(JArr([RecordOne])) == [RecordOne]
    ensures StudentList(Envelope(JArr([RecordOne]))) == [RecordOne]
    ensures StudentList(Envelope(RecordOne)) == [RecordOne]
    ensures StudentList(JObj([])) == []
  {
  }

  /** The body of a single-record response as `getStudent`, `createStudent`,
      `updateStudent` and `deleteStudent` return it: `body.data || body`.
      Reading `data` of a null or undefined body throws a TypeError, shown
      as `None`. */
  function StudentRecord(body: Json): (r: Option<Json>)
    ensures r.None? <==> Nullish(body)
    ensures r.Some? ==> Truthy(r.value) || r.value == body
  {
    if Nullish(body) then None else Some(Or(DataOf(body), body))
  }

  /** A field value is never the object that holds it, so `data` differs
      from every body but `undefined`. */
  lemma DataIsNotBody(body: Json)
    requires !body.JUndefined?
    ensures DataOf(body) != body
  {
  }

  /** Unwrapping an envelope gives back a truthy payload. */
  lemma RecordEnvelopeRoundTrip(payload: Json)
    requires Truthy(payload)
    ensures StudentRecord(Envelope(payload)) == Some(payload)
  {
  }

  /** The body itself is returned exactly when it can be read and its `data`
      is falsy (missing, null, false, 0 or the empty string). */
  lemma BodyReturnedIff(body: Json)
    ensures StudentRecord(body) == Some(body) <==> !Nullish(body) && !Truthy(DataOf(body))
  {
  }

  /** `data` is returned exactly when it is truthy. */
  lemma DataReturnedIff(body: Json)
    ensures StudentRecord(body) == Some(DataOf(body)) <==> Truthy(DataOf(body))
  {
  }

  /** A falsy `data` falls back to the whole envelope. */
  lemma FalsyDataFallsBack(payload: Json)
    requires !Truthy(payload)
    ensures StudentRecord(Envelope(payload)) == Some(Envelope(payload))
  {
  }
}

=== FILE: student_service.dfy ===
/**
 * The five methods of the student service: the request each one sends and
 * what the caller receives once the HTTP library has settled that request,
 * either with a response body or with an error. Sending the request,
 * waiting for it and the library's own timeout are outside the model; the
 * settled outcome is a parameter.
 */
module StudentService {
  import opened Optional
  import opened JsValue
  import opened ErrorNormalization
  import opened ResponseUnwrapping

  /** A call of one of the service's methods, with its arguments. */
  datatype Operation =
    | GetStudents
    | GetStudent(id: Json)
    | CreateStudent(student: Json)
    | UpdateStudent(id: Json, student: Json)
    | DeleteStudent(id: Json)

  /** The four methods that return one record. */
  predicate SingleRecord(op: Operation) {
    !op.GetStudents?
  }

  /** The methods whose path names a student. */
  predicate HasId(op: Operation) {
    op.GetStudent? || op.UpdateStudent? || op.DeleteStudent?
  }

  datatype HttpMethod = Get | Post | Put | Delete

  /** A request relative to the base URL. */
  datatype Request = Request(verb: HttpMethod, path: string, body: Option<Json>)

  const Collection: string := "/students"

  /** The path of one student: the collection, a slash, and the id as a
      template literal prints it. */
  function MemberPath(id: Json): string {
    Collection + "/" + ToJsString(id)
  }

  /** The request each method sends. */
  function RequestOf(op: Operation): (req: Request)
    ensures req.body.Some? <==> op.CreateStudent? || op.UpdateStudent?
    ensures req.path == Collection <==> !HasId(op)
  {
    match op
    case GetStudents => Request(Get, Collection, None)
    case GetStudent(id) => Request(Get, MemberPath(id), None)
    case CreateStudent(student) => Request(Post, Collection, Some(student))
    case UpdateStudent(id, student) => Request(Put, MemberPath(id), Some(student))
    case DeleteStudent(id) => Request(Delete, MemberPath(id), None)
  }

  /** The id segment of a member path. */
  function IdSegment(path: string): Option<string> {
    var prefix := Collection + "/";
    if prefix <= path then Some(path[|prefix|..]) else None
  }

  /** The path of a request gives back the printed id of the student it is
      about, and nothing for the collection. */
  lemma PathIdRoundTrip(op: Operation)
    ensures HasId(op) ==> IdSegment(RequestOf(op).path) == Some(ToJsString(op.id))
    ensures !HasId(op) ==> IdSegment(RequestOf(op).path) == None
  {
  }

  /** An integer id is printed into the path in decimal: a non-negative id
      as digits that read back to it, a negative one as "-" followed by the
      digits of its magnitude. */
  lemma NumericIdRoundTrip(n: int)
    ensures IdSegment(RequestOf(GetStudent(JNum(n))).path) == Some(IntToDecimal(n))
    ensures n >= 0 ==> AllDigits(IntToDecimal(n)) && DecimalValue(IntToDecimal(n)) == n
    ensures n < 0 ==> (IntToDecimal(n)[0] == '-' &&
      AllDigits(IntToDecimal(n)[1..]) && DecimalValue(IntToDecimal(n)[1..]) == -n)
  {
    PathIdRoundTrip(GetStudent(JNum(n)));
    IntToDecimalRoundTrip(n);
  }

  /** Two calls send the same request only if they are the same method
      with ids that print alike and the same payload. */
  lemma RequestsDistinguishOperations(a: Operation, b: Operation)
    requires RequestOf(a) == RequestOf(b)
    ensures a.GetStudents? <==> b.GetStudents?
    ensures a.GetStudent? <==> b.GetStudent?
    ensures a.CreateStudent? <==> b.CreateStudent?
    ensures a.UpdateStudent? <==> b.UpdateStudent?
    ensures a.DeleteStudent? <==> b.DeleteStudent?
    ensures HasId(a) ==> ToJsString(a.id) == ToJsString(b.id)
    ensures a.CreateStudent? || a.UpdateStudent? ==> a.student == b.student
  {
    PathIdRoundTrip(a);
    PathIdRoundTrip(b);
  }

  /** How the HTTP library settles a request. */
  datatype Outcome = Delivered(body: Json) | Failed(error: HttpError)

  /** What the caller of a method observes. */
  datatype CallResult =
    | Records(list: seq<Json>)
    | Record(record: Json)
    | Rejected(message: string)
    // The returned promise rejects with the TypeError thrown by reading
    // `data` of a null or undefined body.
    | RejectedWithTypeError

  /** The settled call: a failure is rejected with the normalised message,
      a list body is unwrapped by the list policy, a single-record body by
      `data || body`, which rejects with a TypeError when the body is null
      or undefined. */
  function Settle(op: Operation, outcome: Outcome): (r: CallResult)
    ensures r.Rejected? <==> outcome.Failed?
    ensures r.Records? <==> op.GetStudents? && outcome.Delivered?
    ensures r.Record? <==> SingleRecord(op) && outcome.Delivered? && !Nullish(outcome.body)
    ensures r.RejectedWithTypeError? <==> SingleRecord(op) && outcome.Delivered? && Nullish(outcome.body)
    ensures r.Rejected? ==> r.message == NormalizeError(outcome.error)
    ensures r.Records? ==> r.list == StudentList(outcome.body)
    ensures r.Record? ==> StudentRecord(outcome.body) == Some(r.record)
  {
    match outcome
    case Failed(e) => Rejected(NormalizeError(e))
    case Delivered(body) =>
      if op.GetStudents? then Records(StudentList(body))
      else
        match StudentRecord(body)
        case Some(v) => Record(v)
        case None => RejectedWithTypeError
  }

  /** A single-record method resolves to the body's `data` when that is
      truthy and to the whole body otherwise, and rejects with a TypeError
      when the body is null or undefined. */
  lemma SingleRecordValue(op: Operation, body: Json)
    requires SingleRecord(op)
    ensures Nullish(body) ==> Settle(op, Delivered(body)) == RejectedWithTypeError
    ensures !Nullish(body) && Truthy(DataOf(body)) ==> Settle(op, Delivered(body)) == Record(DataOf(body))
    ensures !Nullish(body) && !Truthy(DataOf(body)) ==> Settle(op, Delivered(body)) == Record(body)
  {
  }

  /** Every method reports a failure the same way: by the normalised
      message. */
  lemma FailuresAreNormalized(op: Operation, e: HttpError)
    ensures Settle(op, Failed(e)) == Rejected(NormalizeError(e))
  {
  }

  /** The four single-record methods apply one and the same rule. */
  lemma SingleRecordMethodsAgree(a: Operation, b: Operation, body: Json)
    requires SingleRecord(a) && SingleRecord(b)
    ensures Settle(a, Delivered(body)) == Settle(b, Delivered(body))
  {
  }

  /** The list method never fails because of the shape of a body. */
  lemma ListNeverFailsOnShape(body: Json)
    ensures Settle(GetStudents, Delivered(body)) == Records(StudentList(body))
  {
  }

  /** The record `{id: 5, name: "A"}` used by the examples. */
  const RecordFive: Json := JObj([Field("id", JNum(5)), Field("name", JStr("A"))])

  lemma GetStudentExamples()
    ensures Settle(GetStudent(JNum(5)), Delivered(Envelope(RecordFive))) == Record(RecordFive)
    ensures Settle(GetStudent(JNum(5)), Delivered(RecordFive)) == Record(RecordFive)
    ensures RequestOf(GetStudent(JNum(5))).path == "/students/5"
  {
  }

  lemma CreateStudentServerErrorExample()
    ensures Settle(CreateStudent(JObj([Field("name", JStr("X"))])),
      Failed(HttpError(None, "Request failed with status code 500",
        Some(Response(500, JObj([Field("message", JStr("DB down"))])))))) == Rejected("DB down")
  {
  }
}
